=== FILE: README.md ===
# Secret friend draw — a Dafny model

This project models the core of a "secret friend" gift exchange. Participants
belong to houses. A draw gives every participant one other participant to
give a present to. Nobody draws themselves or someone of their own house, and
every participant is drawn exactly once.

Three parts are modelled:

- **The matcher** (`createValidAssignments`, module `Matching`). It makes up
  to 100 attempts. Each attempt shuffles the givers. Then, giver by giver, it
  takes the first valid receiver of a freshly shuffled list and recurses. When
  a branch fails it backtracks by popping the pair and un-using the receiver.
  The shuffles are an argument of type `Shuffler`: the `t`-th shuffle of an
  `n`-element list is some permutation of its indices. Nothing constrains
  which permutation, so every result holds whatever `Math.random` returns.
- **The session store** (`createSession`, `getSession`, `setSession`,
  `claimPerson`, `getReceiverFor`, module `Store`). The global `Map` is a
  `map<string, Session>` that each operation takes and returns.
- **The setup screen's state transitions** (`addHouse`, `removeHouse`,
  `addPerson`, `removePerson`, `performDraw`, `resetDraw`, module `Setup`).
  Each one is a function from one `SetupState` record to the next.

The file `components/setup-view.tsx` repeats the matcher verbatim
(lines 313-384). It is modelled once, and `Setup.PerformDraw` calls that one
definition.

Main results:

- Every non-empty result is a valid draw: `n` pairs, givers in the attempt's
  order, distinct receivers, no self-pairs and no same-house pairs.
- The empty list comes back when there are no people or when everybody
  lives in one house.
- A failed branch leaves `assignments` and `used` exactly as it found them.
  `used` always equals the set of receivers drawn so far.
- Each attempt is an exhaustive search, because every candidate list is a
  permutation of all people. With distinct ids and at least one person,
  the matcher therefore returns `[]` exactly when no valid draw exists, whatever the shuffles. So
  unlucky shuffles never turn a solvable input into a reported failure;
  which draw comes back depends on the shuffles, whether one comes back
  does not.
- When two people share an id the matcher never succeeds: `used` is keyed
  by id, so the search cannot pick `n` different receiver ids among fewer
  than `n` distinct ids. Every non-empty result therefore comes from a list
  with distinct ids, and no receiver id appears twice in it.
- Termination: every function is total. Attempts are bounded by
  `MaxAttempts` (100). Recursion depth is bounded by `n`, because each level
  adds one pair. Each level tries at most `n` candidates.

Ids come from `Date.now()` and can collide, so the operations do not assume
they are distinct. `Types.DistinctIds` is a hypothesis only of the results
that need it: the bijection lemma and the "a draw is found whenever one
exists" clauses.

## Model

| member | source | states |
|---|---|---|
| Permutations.PermutationCovers | lib/store.ts:129-130 | a shuffled copy of the people (a permutation of their indices) contains every person, so the candidate loop tries everybody |
| Matching.IsValid | lib/store.ts:98-100 | a receiver is accepted exactly when it is not the giver's id, not the giver's house, and its id is not yet used; an accepted pair never joins a person to themselves |
| Matching.IsValidIgnoresClaimed | lib/store.ts:98-100 | the validity test does not depend on either person's `claimed` flag |
| Matching.BacktrackWithOrder | lib/store.ts:126-140 | succeeds exactly when the partial draw can be completed along the giver order; on success: `n` pairs, the input extended, k-th giver = k-th of the order, eligible distinct receivers, `used` = receivers; on failure `assignments` and `used` come back unchanged |
| Matching.TryReceivers | lib/store.ts:129-139 | the candidate loop succeeds exactly when some remaining candidate is valid and completable; after a failed recursive call the pop and delete restore the state exactly |
| Matching.Attempts | components/setup-view.tsx:347-358 | the restart loop returns `[]` or a valid draw with no receiver id twice; a non-empty result implies distinct ids; `[]` for no people or one house; (distinct ids) a non-empty draw exactly when one exists |
| Matching.CreateValidAssignments | lib/store.ts:93-124 | the result is `[]` or a valid draw with no receiver id twice; non-empty only when ids are distinct; `[]` when there are no people or everybody shares a house; with distinct ids, non-empty exactly when a valid draw exists |
| Matching.PartialIsDraw | lib/store.ts:127 | a search that reached `n` pairs holds a valid draw: givers and receivers are permutations of the people, with no self-pair or same-house pair |
| Matching.CompleteSearchHasDistinctIds | lib/store.ts:98-99 | a search that reached `n` pairs proves that no two people share an id, because the id-keyed `used` set forced `n` different receiver ids, each some person's id |
| Matching.FollowingDrawCompletes | lib/store.ts:130-139 | with distinct ids, a search that has followed some valid draw so far can still be completed: the receiver of that draw is never already used |
| Matching.SearchFindsFeasibleDraw | lib/store.ts:118-123 | with distinct ids, one attempt succeeds along any giver order whenever some valid draw exists |
| Matching.DrawIsBijection | components/setup-view.tsx:360-383 | with distinct ids, a valid draw has `n` pairs; every person gives once and receives once; each pair joins two different people of different houses |
| Matching.ValidDrawSameRoster | lib/store.ts:98-99 | validity of a draw depends only on ids and houses, not on the `claimed` flags |
| Matching.DrawSpansHouses | lib/store.ts:99 | a valid draw with at least one person shows that a draw exists and that not everybody lives in one house |
| Matching.FeasibleSpansHouses | components/setup-view.tsx:88-92 | if everybody lives in one house, no valid draw exists |
| Store.GetSession | lib/store.ts:58-60 | returns the stored session exactly when one is stored under the id |
| Store.SetSession | lib/store.ts:62-64 | the session is stored under its own id; every other entry is unchanged |
| Store.SetSessionKeepsStoreOk | lib/store.ts:62-64 | storing a well-formed session keeps every session keyed by its id and well formed (complete exactly when it holds pairs, and then a valid draw over distinct ids) |
| Store.CreateSession | lib/store.ts:40-56 | everybody unclaimed, otherwise the same people in the same order; houses, id and timestamp as given; complete exactly when the precomputed draw is non-empty, and then the draw is valid and the ids distinct; never complete for one house; (distinct ids) complete exactly when a draw exists; stored under its id |
| Store.CreateSessionKeepsStoreOk | lib/store.ts:44-54 | creating a session keeps the store well formed: each complete session holds a valid draw over distinct ids, and only a complete one holds pairs |
| Store.Reason | lib/store.ts:68-71 | each claim error maps to its own reason string: `NOT_FOUND`, `PERSON_NOT_FOUND`, `ALREADY_CLAIMED`, and no string stands for two errors |
| Store.FindPerson | lib/store.ts:69 | returns the first position holding the id, or nothing when no person has it |
| Store.ClaimPerson | lib/store.ts:66-83 | errors in order: `NOT_FOUND` iff no session; `PERSON_NOT_FOUND` iff no such person; `ALREADY_CLAIMED` iff that person's flag is set; errors leave the store unchanged; success sets exactly that person's flag, re-draws only if the draw was incomplete and everybody has now claimed, else keeps the draw; other sessions untouched |
| Store.ClaimTwiceConflicts | lib/store.ts:71-72 | after a successful claim, claiming the same person again yields `ALREADY_CLAIMED` |
| Store.ClaimKeepsStoreOk | lib/store.ts:72-81 | a claim keeps every session well formed, including a draw it runs itself |
| Store.LastClaimDecidesDraw | lib/store.ts:74-79 | for an incomplete session with distinct ids, after a successful claim the draw is complete iff everybody has claimed and a valid draw exists |
| Store.FindReceiver | lib/store.ts:88 | returns the receiver of the first pair given by the giver, or nothing when the giver has no pair |
| Store.GetReceiverFor | lib/store.ts:85-90 | nothing for a missing or incomplete session; otherwise the receiver of the giver's first pair, present whenever the giver has a pair |
| Store.ReceiverIsValid | lib/store.ts:85-89 | in a complete session of a well-formed store, every participant gets a receiver who is another participant from another house |
| Setup.Trim | components/setup-view.tsx:39-42 | the result is the infix of the input between leading and trailing white space; it is empty exactly when the input is all white space |
| Setup.Filter | components/setup-view.tsx:52-53 | the result is an order-preserving subsequence holding exactly the kept elements, each as often as in the input |
| Setup.AddHouse | components/setup-view.tsx:38-49 | blank trimmed name: no change; otherwise exactly one house with the trimmed name is appended, the name field is cleared, and an empty selection picks the new house; keeps every person in a listed house |
| Setup.FirstHouseId | components/setup-view.tsx:55 | the fallback selection: the id of the first house of the list it is given, or `""` exactly when the list is empty or that id is empty |
| Setup.RemoveHouseAsWritten | components/setup-view.tsx:51-57 | as written: the house and exactly its people are removed, the rest in order with their multiplicity; a removed selection falls back to the first house of the list from before the removal, so it stays on the removed id exactly when that house came first; in every other field it agrees with the corrected `Setup.RemoveHouse` |
| Setup.StaleSelectionCounterexample | components/setup-view.tsx:54-55 | removing the selected first house keeps it selected; the next added person then belongs to a house that no longer exists |
| Setup.RemoveHouse | components/setup-view.tsx:51-57 | corrected: the house and exactly the people of that house are removed, all others stay in order with their multiplicity; the draw, error and inputs are unchanged; a removed selection moves to a remaining house; every person stays in a listed house |
| Setup.AddPerson | components/setup-view.tsx:59-68 | no change when the trimmed name is blank or no house is selected; otherwise exactly one person with the trimmed name is appended to the selected house and the name field is cleared |
| Setup.RemovePerson | components/setup-view.tsx:70-72 | exactly the people with that id are removed, the rest stay in order; nothing else changes |
| Setup.HouseCount | components/setup-view.tsx:83-89 | for a non-empty list, the number of distinct houses is 1 exactly when everybody lives in one house |
| Setup.PerformDraw | components/setup-view.tsx:74-104 | fewer than 2 people or one house: an error and no other change; no draw found (two or more people, two or more houses): exactly the no-combination error, nothing else changed; success: empty error, complete with a valid non-empty draw over distinct ids; (distinct ids, 2 or more people) success iff a draw exists |
| Setup.ResetDraw | components/setup-view.tsx:106-110 | empty draw, not complete, empty error; houses, people and inputs unchanged |

## Left out

- Randomness: `Math.random` and the shuffles are the `Shuffler` argument. The model makes no claim about the distribution of the draws. Which draw is returned depends on the shuffles; whether one is returned does not (see above).
- `generateSessionId`/`randomBytes` and `Date.now()`: the session id, the creation time and the ids of new houses and people are parameters.
- The `globalThis` plumbing that keeps the map alive across hot reloads: the store is a plain map value.
- The unused `backtrack(index)` helpers (lib/store.ts:102-116, components/setup-view.tsx:322-345): nothing calls them.
- Concurrent claims of one session: the model is sequential, as a single-threaded host runs it.
- The HTTP routes, the public projection of a session, `createShareLink`, the clipboard, the house picker's own selection events, and all rendering: this is I/O and UI.
- The setup page's own `Person` type is not part of this model. People created on the setup screen carry `claimed = false`, which the matcher ignores.
- `createSession` takes people with a `claimed` field and overwrites it with `false`, which is the effect of the source's spread.
- Adding or removing houses and people after a draw keeps the old draw and `isDrawComplete`, as the source does. So `Setup.DrawOk` is kept only by `PerformDraw` and `ResetDraw`.
- With duplicate ids, `claimPerson` can only reach the first person holding an id. The later ones are never marked claimed, so the lazy re-draw never runs, and the matcher would find no draw anyway. The model reproduces this. It states no lemma about the claim side of it.

## Findings

| source | as written | input that shows it | evidently intended | confidence | as-written member | corrected member |
|---|---|---|---|---|---|---|
| components/setup-view.tsx:54-55 | when the selected house is removed, the selection falls back to `houses[0]` of the list from before the removal | houses `[{id "1"}]`, selection `"1"`, remove house `"1"`: the selection stays `"1"`, and adding a person then creates one in the missing house `"1"` | fall back to the first house that remains, or to none | medium, not executed | Setup.RemoveHouseAsWritten (with Setup.StaleSelectionCounterexample) | Setup.RemoveHouse |

=== FILE: matching.dfy ===
/**
 The matching engine of lib/store.ts (`createValidAssignments`, duplicated
 verbatim in components/setup-view.tsx): randomized backtracking with restarts
 that gives each person a receiver who is neither the giver nor a member of the
 giver's house, each receiver used once.

 The mutable `assignments` array and `used` set of the source become the
 `assignments` and `used` fields of a `Search` record that every step takes and
 returns; a failed branch returns its state to the caller, which undoes the
 push and the add exactly as the source's `pop` and `delete` do. Each call of
 `[...people].sort(() => Math.random() - 0.5)` is `shuffle(tick, n)` for the
 next value of the counter `tick`.
 */
module Matching {
  import opened Types
  import opened Permutations

  /** Number of restarts before the matcher gives up. */
  const MaxAttempts: nat := 100

  /** The ids already drawn as receivers. */
  function Receivers(assignments: seq<Assignment>): set<string> {
    set a | a in assignments :: a.receiverId
  }

  lemma ReceiversPush(assignments: seq<Assignment>, a: Assignment)
    ensures Receivers(assignments + [a]) == Receivers(assignments) + {a.receiverId}
  {
    assert forall x :: x in assignments + [a] <==> x in assignments || x == a;
  }

  /** The source's `isValid`: not the giver, not the giver's house, not drawn
      yet. A valid pair never joins a person to themselves, never reuses a
      receiver, and does not look at the `claimed` flags. */
  function IsValid(giver: Person, receiver: Person, used: set<string>): (b: bool)
    ensures b ==> giver.id != receiver.id && giver.houseId != receiver.houseId && receiver.id !in used
    ensures b ==> giver != receiver
    ensures !b ==> giver.id == receiver.id || giver.houseId == receiver.houseId || receiver.id in used
  {
    giver.id != receiver.id && giver.houseId != receiver.houseId && receiver.id !in used
  }

  /** Checking in does not change who may give to whom. */
  lemma IsValidIgnoresClaimed(giver: Person, receiver: Person, used: set<string>, c: bool, d: bool)
    ensures IsValid(giver.(claimed := c), receiver.(claimed := d), used) == IsValid(giver, receiver, used)
  {
  }

  /** Append the pair `giver` to `receiver` to the draw (lib/store.ts:133). */
  function Push(assignments: seq<Assignment>, giver: Person, receiver: Person): seq<Assignment> {
    assignments + [Assignment(giver.id, receiver.id)]
  }

  /** Person `j` has id `rid`, which is not the giver's id, and lives outside the giver's house. */
  ghost predicate EligibleAt(people: seq<Person>, giver: Person, rid: string, j: nat)
    requires j < |people|
  {
    people[j].id == rid && rid != giver.id && people[j].houseId != giver.houseId
  }

  /** `rid` names some person the giver may give to. */
  ghost predicate Receivable(people: seq<Person>, giver: Person, rid: string) {
    exists j: nat :: j < |people| && EligibleAt(people, giver, rid, j)
  }

  ghost predicate DistinctReceivers(assignments: seq<Assignment>) {
    forall a, b :: 0 <= a < b < |assignments| ==> assignments[a].receiverId != assignments[b].receiverId
  }

  /** A partial draw as the search builds it along the giver order `order`: the
      k-th pair is given by the k-th person of the order to an eligible person,
      and no receiver is drawn twice. */
  ghost predicate Partial(people: seq<Person>, order: seq<nat>, assignments: seq<Assignment>) {
    && IsPermutation(order, |people|)
    && |assignments| <= |people|
    && (forall k :: 0 <= k < |assignments| ==>
          && assignments[k].giverId == people[order[k]].id
          && Receivable(people, people[order[k]], assignments[k].receiverId))
    && DistinctReceivers(assignments)
  }

  /** Reference semantics of one attempt: the partial draw can be completed
      along `order` by some choice of a valid receiver at every step. */
  ghost predicate CanComplete(people: seq<Person>, order: seq<nat>, assignments: seq<Assignment>)
    requires IsPermutation(order, |people|) && |assignments| <= |people|
    decreases |people| - |assignments|, 1
  {
    || |assignments| == |people|
    || exists j: nat :: j < |people| && Extends(people, order, assignments, j)
  }

  /** Giving the next giver of `order` to person `j` is valid and completable. */
  ghost predicate Extends(people: seq<Person>, order: seq<nat>, assignments: seq<Assignment>, j: nat)
    requires IsPermutation(order, |people|) && |assignments| < |people| && j < |people|
    decreases |people| - |assignments|, 0
  {
    var giver := people[order[|assignments|]];
    && IsValid(giver, people[j], Receivers(assignments))
    && CanComplete(people, order, Push(assignments, giver, people[j]))
  }

  /** The state of the search: whether it succeeded, the pairs and used
      receivers, and how many shuffles have been drawn so far. */
  datatype Search = Search(found: bool, assignments: seq<Assignment>, used: set<string>, tick: nat)

  /** `backtrackWithOrder`: give the next giver of `order` a receiver and recurse. */
  function BacktrackWithOrder(people: seq<Person>, order: seq<nat>, shuffle: Shuffler,
                              assignments: seq<Assignment>, used: set<string>, tick: nat): (r: Search)
    requires Partial(people, order, assignments)
    requires used == Receivers(assignments)
    decreases |people| - |assignments|, 1, 0
    ensures r.found == CanComplete(people, order, assignments)
    ensures r.found ==>
              && |r.assignments| == |people|
              && assignments <= r.assignments
              && Partial(people, order, r.assignments)
              && r.used == Receivers(r.assignments)
    ensures !r.found ==> r.assignments == assignments && r.used == used
    ensures r.tick >= tick
  {
    if |assignments| == |people| then
      Search(true, assignments, used, tick)
    else
      var candidates := shuffle(tick, |people|);
      PermutationCovers(candidates, |people|);
      var r := TryReceivers(people, order, shuffle, candidates, 0, assignments, used, tick + 1);
      assert r.found ==> CanComplete(people, order, assignments);
      assert CanComplete(people, order, assignments) ==> r.found by {
        if CanComplete(people, order, assignments) {
          assert CanComplete(people, order, assignments) == exists j: nat :: j < |people| && Extends(people, order, assignments, j);
          var j: nat :| j < |people| && Extends(people, order, assignments, j);
          var k := IndexOf(candidates, j);
          assert Extends(people, order, assignments, candidates[k]);
        }
      }
      r
  }

  /** The candidate loop of one search level (lib/store.ts:130-139): try the
      shuffled candidates from position `i` on, and keep the first one that is
      valid and lets the rest of the draw complete. */
  function TryReceivers(people: seq<Person>, order: seq<nat>, shuffle: Shuffler, candidates: seq<nat>, i: nat,
                        assignments: seq<Assignment>, used: set<string>, tick: nat): (r: Search)
    requires Partial(people, order, assignments) && |assignments| < |people|
    requires used == Receivers(assignments)
    requires IsPermutation(candidates, |people|) && i <= |candidates|
    decreases |people| - |assignments|, 0, |candidates| - i
    ensures r.found <==> exists k :: i <= k < |candidates| && Extends(people, order, assignments, candidates[k])
    ensures r.found ==>
              && |r.assignments| == |people|
              && assignments <= r.assignments
              && Partial(people, order, r.assignments)
              && r.used == Receivers(r.assignments)
    ensures !r.found ==> r.assignments == assignments && r.used == used
    ensures r.tick >= tick
  {
    if i == |candidates| then
      Search(false, assignments, used, tick)
    else
      var giver := people[order[|assignments|]];
      var receiver := people[candidates[i]];
      if IsValid(giver, receiver, used) then
        var pushed := Push(assignments, giver, receiver);
        ReceiversPush(assignments, Assignment(giver.id, receiver.id));
        assert EligibleAt(people, giver, receiver.id, candidates[i]);
        var sub := BacktrackWithOrder(people, order, shuffle, pushed, used + {receiver.id}, tick);
        if sub.found then
          sub
        else
          // undo the choice: drop the pair and free the receiver (lib/store.ts:135-136)
          var popped := sub.assignments[..|sub.assignments| - 1];
          var unused := sub.used - {receiver.id};
          assert popped == assignments && unused == used;
          TryReceivers(people, order, shuffle, candidates, i + 1, popped, unused, sub.tick)
      else
        TryReceivers(people, order, shuffle, candidates, i + 1, assignments, used, tick)
  }

  /** A complete draw given by index: the k-th giver `people[g[k]]` gives to
      `people[r[k]]`, both orders are permutations, and no pair is a self-pair
      or a same-house pair. */
  ghost predicate IsDraw(people: seq<Person>, g: seq<nat>, r: seq<nat>) {
    && IsPermutation(g, |people|)
    && IsPermutation(r, |people|)
    && forall k :: 0 <= k < |people| ==>
         && people[g[k]].id != people[r[k]].id
         && people[g[k]].houseId != people[r[k]].houseId
  }

  /** The pairs of ids a draw given by index denotes. */
  function PairsOf(people: seq<Person>, g: seq<nat>, r: seq<nat>): seq<Assignment>
    requires |g| == |r|
    requires forall k :: 0 <= k < |g| ==> g[k] < |people| && r[k] < |people|
  {
    seq(|g|, k requires 0 <= k < |g| => Assignment(people[g[k]].id, people[r[k]].id))
  }

  /** `assignments` is a complete, valid draw for `people`. */
  ghost predicate ValidDraw(people: seq<Person>, assignments: seq<Assignment>) {
    exists g, r :: IsDraw(people, g, r) && assignments == PairsOf(people, g, r)
  }

  /** Some complete, valid draw exists. */
  ghost predicate Feasible(people: seq<Person>) {
    exists g, r :: IsDraw(people, g, r)
  }

  ghost function ReceiverIndex(people: seq<Person>, order: seq<nat>, assignments: seq<Assignment>, k: nat): (j: nat)
    requires Partial(people, order, assignments) && k < |assignments|
    ensures j < |people| && EligibleAt(people, people[order[k]], assignments[k].receiverId, j)
  {
    var j: nat :| j < |people| && EligibleAt(people, people[order[k]], assignments[k].receiverId, j); j
  }

  /** A search that reached the end holds a complete, valid draw. */
  lemma PartialIsDraw(people: seq<Person>, order: seq<nat>, assignments: seq<Assignment>)
    requires Partial(people, order, assignments) && |assignments| == |people|
    ensures ValidDraw(people, assignments)
  {
    var r := seq(|assignments|, k requires 0 <= k < |assignments| => ReceiverIndex(people, order, assignments, k));
    assert IsPermutation(r, |people|);
    assert IsDraw(people, order, r);
    assert assignments == PairsOf(people, order, r);
  }

  /** The ids the people carry; fewer than the people when two share an id. */
  function Ids(people: seq<Person>): set<string> {
    set k | 0 <= k < |people| :: people[k].id
  }

  lemma {:induction false} IdsCount(people: seq<Person>)
    ensures |Ids(people)| <= |people|
    ensures !DistinctIds(people) ==> |Ids(people)| < |people|
  {
    if |people| > 0 {
      var init := people[..|people| - 1];
      var last := people[|people| - 1];
      IdsCount(init);
      assert Ids(people) == Ids(init) + {last.id} by {
        forall x | x in Ids(people)
          ensures x in Ids(init) + {last.id}
        {
          var k :| 0 <= k < |people| && people[k].id == x;
          if k < |people| - 1 {
            assert init[k] == people[k];
          }
        }
        forall x | x in Ids(init)
          ensures x in Ids(people)
        {
          var k :| 0 <= k < |init| && init[k].id == x;
          assert people[k] == init[k];
        }
      }
      if !DistinctIds(people) {
        var a, b :| 0 <= a < b < |people| && people[a].id == people[b].id;
        if b < |people| - 1 {
          assert init[a] == people[a] && init[b] == people[b];
          assert !DistinctIds(init);
        } else {
          assert init[a] == people[a];
          assert last.id in Ids(init);
        }
      }
    }
  }

  lemma {:induction false} ReceiversCount(assignments: seq<Assignment>)
    requires DistinctReceivers(assignments)
    ensures |Receivers(assignments)| == |assignments|
  {
    if |assignments| > 0 {
      var init := assignments[..|assignments| - 1];
      var last := assignments[|assignments| - 1];
      assert assignments == init + [last];
      ReceiversCount(init);
      ReceiversPush(init, last);
    }
  }

  /** A search can only reach the end when no two people share an id: the n
      receivers drawn are n different ids, and every one of them is some
      person's id. So with colliding ids the matcher never succeeds. */
  lemma CompleteSearchHasDistinctIds(people: seq<Person>, order: seq<nat>, assignments: seq<Assignment>)
    requires Partial(people, order, assignments) && |assignments| == |people|
    ensures DistinctIds(people)
  {
    ReceiversCount(assignments);
    IdsCount(people);
    forall x | x in Receivers(assignments)
      ensures x in Ids(people)
    {
      var a :| a in assignments && a.receiverId == x;
      var k :| 0 <= k < |assignments| && assignments[k] == a;
      var j := ReceiverIndex(people, order, assignments, k);
    }
    SubsetCount(Receivers(assignments), Ids(people));
  }

  lemma SubsetCount<T>(a: set<T>, b: set<T>)
    requires a <= b
    ensures |a| <= |b|
  {
    assert b == a + (b - a);
  }

  /** The receiver a complete draw by index gives to person `i`. */
  function Partner(g: seq<nat>, r: seq<nat>, i: nat): nat
    requires |g| == |r|
  {
    if i in g then r[IndexOf(g, i)] else 0
  }

  /** With distinct ids, a search that has so far followed a valid draw
      `(g, r)` can always be completed: the receiver the draw gives to the next
      giver is still unused. */
  lemma {:induction false} FollowingDrawCompletes(people: seq<Person>, order: seq<nat>, g: seq<nat>, r: seq<nat>,
                                                  assignments: seq<Assignment>)
    requires DistinctIds(people)
    requires IsPermutation(order, |people|) && IsDraw(people, g, r)
    requires |assignments| <= |people|
    requires forall k :: 0 <= k < |assignments| ==>
               assignments[k] == Assignment(people[order[k]].id, people[Partner(g, r, order[k])].id)
    decreases |people| - |assignments|
    ensures CanComplete(people, order, assignments)
  {
    if |assignments| < |people| {
      PermutationCovers(g, |people|);
      var d := |assignments|;
      var i := order[d];
      var m := IndexOf(g, i);
      var j := r[m];
      var giver := people[i];
      assert Partner(g, r, i) == j;
      forall k | 0 <= k < d
        ensures assignments[k].receiverId != people[j].id
      {
        var mk := IndexOf(g, order[k]);
        assert g[mk] == order[k] != order[d] == g[m];
        assert r[mk] != r[m];
      }
      assert people[j].id !in Receivers(assignments);
      assert IsValid(giver, people[j], Receivers(assignments));
      var next := Push(assignments, giver, people[j]);
      FollowingDrawCompletes(people, order, g, r, next);
      assert Extends(people, order, assignments, j);
    }
  }

  /** With distinct ids, one attempt finds a draw along any giver order
      whenever a draw exists: the search is exhaustive. */
  lemma SearchFindsFeasibleDraw(people: seq<Person>, order: seq<nat>)
    requires IsPermutation(order, |people|)
    ensures DistinctIds(people) && Feasible(people) ==> CanComplete(people, order, [])
  {
    if DistinctIds(people) && Feasible(people) {
      var g, r :| IsDraw(people, g, r);
      FollowingDrawCompletes(people, order, g, r, []);
    }
  }

  /** Giver and receiver of `a` are two different people of different houses. */
  ghost predicate Crosses(people: seq<Person>, a: Assignment) {
    exists x, y :: && 0 <= x < |people| && 0 <= y < |people|
                   && people[x].id == a.giverId && people[y].id == a.receiverId
                   && x != y && people[x].houseId != people[y].houseId
  }

  /** Person `i` gives in some pair. */
  ghost predicate Gives(people: seq<Person>, assignments: seq<Assignment>, i: nat)
    requires i < |people|
  {
    exists k :: 0 <= k < |assignments| && assignments[k].giverId == people[i].id
  }

  /** Person `i` receives in some pair. */
  ghost predicate Receives(people: seq<Person>, assignments: seq<Assignment>, i: nat)
    requires i < |people|
  {
    exists k :: 0 <= k < |assignments| && assignments[k].receiverId == people[i].id
  }

  /** The index orders behind a valid draw, pair by pair. */
  lemma DrawIndices(people: seq<Person>, assignments: seq<Assignment>) returns (g: seq<nat>, r: seq<nat>)
    requires ValidDraw(people, assignments)
    ensures IsDraw(people, g, r) && |assignments| == |people|
    ensures forall k :: 0 <= k < |assignments| ==>
              assignments[k].giverId == people[g[k]].id && assignments[k].receiverId == people[r[k]].id
  {
    g, r :| IsDraw(people, g, r) && assignments == PairsOf(people, g, r);
  }

  /** With distinct ids a valid draw is a bijection on the people: there are
      `n` pairs, every person gives once and receives once, and every pair
      joins two different people of different houses. */
  lemma DrawIsBijection(people: seq<Person>, assignments: seq<Assignment>)
    requires DistinctIds(people) && ValidDraw(people, assignments)
    ensures |assignments| == |people|
    ensures forall a, b :: 0 <= a < b < |assignments| ==> assignments[a].giverId != assignments[b].giverId
    ensures forall a, b :: 0 <= a < b < |assignments| ==> assignments[a].receiverId != assignments[b].receiverId
    ensures forall i: nat :: i < |people| ==> Gives(people, assignments, i) && Receives(people, assignments, i)
    ensures forall k :: 0 <= k < |assignments| ==> Crosses(people, assignments[k])
  {
    var g, r := DrawIndices(people, assignments);
    DrawIsOneToOne(people, assignments, g, r);
    DrawIsOnto(people, assignments, g, r);
    DrawPairsCross(people, assignments, g, r);
  }

  lemma DrawPairsCross(people: seq<Person>, assignments: seq<Assignment>, g: seq<nat>, r: seq<nat>)
    requires IsDraw(people, g, r) && |assignments| == |people|
    requires forall k :: 0 <= k < |assignments| ==>
               assignments[k].giverId == people[g[k]].id && assignments[k].receiverId == people[r[k]].id
    ensures forall k :: 0 <= k < |assignments| ==> Crosses(people, assignments[k])
  {
    forall k | 0 <= k < |assignments|
      ensures Crosses(people, assignments[k])
    {
      assert people[g[k]].id != people[r[k]].id;
    }
  }

  lemma DrawIsOneToOne(people: seq<Person>, assignments: seq<Assignment>, g: seq<nat>, r: seq<nat>)
    requires DistinctIds(people) && IsDraw(people, g, r) && |assignments| == |people|
    requires forall k :: 0 <= k < |assignments| ==>
               assignments[k].giverId == people[g[k]].id && assignments[k].receiverId == people[r[k]].id
    ensures forall a, b :: 0 <= a < b < |assignments| ==> assignments[a].giverId != assignments[b].giverId
    ensures forall a, b :: 0 <= a < b < |assignments| ==> assignments[a].receiverId != assignments[b].receiverId
  {
    forall a, b | 0 <= a < b < |assignments|
      ensures assignments[a].giverId != assignments[b].giverId
      ensures assignments[a].receiverId != assignments[b].receiverId
    {
      assert g[a] != g[b] && r[a] != r[b];
    }
  }

  lemma DrawIsOnto(people: seq<Person>, assignments: seq<Assignment>, g: seq<nat>, r: seq<nat>)
    requires IsDraw(people, g, r) && |assignments| == |people|
    requires forall k :: 0 <= k < |assignments| ==>
               assignments[k].giverId == people[g[k]].id && assignments[k].receiverId == people[r[k]].id
    ensures forall i: nat :: i < |people| ==> Gives(people, assignments, i) && Receives(people, assignments, i)
  {
    PermutationCovers(g, |people|);
    PermutationCovers(r, |people|);
    forall i: nat | i < |people|
      ensures Gives(people, assignments, i) && Receives(people, assignments, i)
    {
      var kg := IndexOf(g, i);
      assert assignments[kg].giverId == people[i].id;
      var kr := IndexOf(r, i);
      assert assignments[kr].receiverId == people[i].id;
    }
  }

  /** A draw depends only on the people's ids and houses, not on their `claimed` flags. */
  lemma ValidDrawSameRoster(p: seq<Person>, q: seq<Person>, assignments: seq<Assignment>)
    requires SameRoster(p, q) && ValidDraw(p, assignments)
    ensures ValidDraw(q, assignments)
  {
    var g, r :| IsDraw(p, g, r) && assignments == PairsOf(p, g, r);
    forall k | 0 <= k < |p|
      ensures q[k].id == p[k].id && q[k].houseId == p[k].houseId
    {
      assert p[k].(claimed := false).id == p[k].id;
    }
    assert IsDraw(q, g, r);
    assert PairsOf(q, g, r) == PairsOf(p, g, r);
  }

  /** A valid draw of at least one pair spans two houses. */
  lemma DrawSpansHouses(people: seq<Person>, assignments: seq<Assignment>)
    requires ValidDraw(people, assignments) && |people| > 0
    ensures Feasible(people)
    ensures !AllInOneHouse(people)
  {
    var g, r :| IsDraw(people, g, r) && assignments == PairsOf(people, g, r);
    assert people[g[0]].houseId != people[r[0]].houseId;
  }

  /** A draw, if any exists, pairs two people of different houses: with
      everybody in one house there is none. */
  lemma FeasibleSpansHouses(people: seq<Person>)
    requires |people| > 0
    ensures Feasible(people) ==> !AllInOneHouse(people)
  {
    if Feasible(people) {
      var g, r :| IsDraw(people, g, r);
      assert people[g[0]].houseId != people[r[0]].houseId;
    }
  }

  /** The restart loop (lib/store.ts:118-124): start a fresh search along a new
      giver order, up to `MaxAttempts` times, and give up with `[]`. */
  function Attempts(people: seq<Person>, shuffle: Shuffler, attempt: nat, tick: nat): (r: seq<Assignment>)
    requires attempt <= MaxAttempts
    decreases MaxAttempts - attempt
    ensures r == [] || ValidDraw(people, r)
    ensures DistinctReceivers(r)
    ensures r != [] ==> DistinctIds(people)
    ensures |people| == 0 || AllInOneHouse(people) ==> r == []
    ensures DistinctIds(people) && attempt < MaxAttempts ==> (r != [] <==> |people| > 0 && Feasible(people))
  {
    if attempt == MaxAttempts then
      []
    else
      var order := shuffle(tick, |people|);
      var s := BacktrackWithOrder(people, order, shuffle, [], {}, tick + 1);
      SearchFindsFeasibleDraw(people, order);
      if s.found then
        PartialIsDraw(people, order, s.assignments);
        CompleteSearchHasDistinctIds(people, order, s.assignments);
        if |people| > 0 then DrawSpansHouses(people, s.assignments); s.assignments else s.assignments
      else
        var rest := Attempts(people, shuffle, attempt + 1, s.tick);
        if rest != [] then DrawSpansHouses(people, rest); rest else rest
  }

  /** `createValidAssignments`: a complete valid draw, or `[]` when none was found. */
  function CreateValidAssignments(people: seq<Person>, shuffle: Shuffler): (r: seq<Assignment>)
    ensures r == [] || ValidDraw(people, r)
    ensures DistinctReceivers(r)
    ensures r != [] ==> DistinctIds(people)
    ensures |people| == 0 || AllInOneHouse(people) ==> r == []
    ensures DistinctIds(people) ==> (r != [] <==> |people| > 0 && Feasible(people))
  {
    Attempts(people, shuffle, 0, 0)
  }
}

=== FILE: permutations.dfy ===
/**
 Index permutations. Every `[...people].sort(() => Math.random() - 0.5)` of the
 matcher yields some reordering of `people`; the model represents that
 reordering as a permutation of the indices 0 .. n-1 and lets the caller pick it.
 */
module Permutations {

  /** `s` lists each of 0 .. n-1 once: it has length n, its entries are below n
      and no entry repeats. */
  predicate IsPermutation(s: seq<nat>, n: nat) {
    && |s| == n
    && (forall k :: 0 <= k < |s| ==> s[k] < n)
    && (forall a, b :: 0 <= a < b < |s| ==> s[a] != s[b])
  }

  /** The order the people were given in. */
  function Identity(n: nat): (s: seq<nat>)
    ensures IsPermutation(s, n)
    ensures forall k :: 0 <= k < n ==> s[k] == k
  {
    if n == 0 then [] else Identity(n - 1) + [n - 1]
  }

  /** A source of shuffles: the `t`-th shuffle of an `n`-element list is a
      permutation of its indices. Which permutation is left open, so every
      property proved for a `Shuffler` holds whatever `Math.random` returns. */
  type Shuffler = f: (nat, nat) -> seq<nat> | forall t: nat, n: nat :: IsPermutation(f(t, n), n)
    witness (t: nat, n: nat) => Identity(n)

  function Elements(s: seq<nat>): set<nat> {
    set x | x in s
  }

  lemma {:induction false} DistinctElementsCount(s: seq<nat>)
    requires forall a, b :: 0 <= a < b < |s| ==> s[a] != s[b]
    ensures |Elements(s)| == |s|
  {
    if |s| > 0 {
      var init := s[..|s| - 1];
      DistinctElementsCount(init);
      assert Elements(s) == Elements(init) + {s[|s| - 1]};
      assert s[|s| - 1] !in Elements(init);
    }
  }

  lemma SubsetOfSameSize<T>(a: set<T>, b: set<T>)
    requires a <= b && |a| == |b|
    ensures a == b
  {
    assert a + (b - a) == b;
    assert a * (b - a) == {};
    assert |b - a| == 0;
  }

  /** Pigeonhole: a permutation of 0 .. n-1 contains every one of them. */
  lemma PermutationCovers(s: seq<nat>, n: nat)
    requires IsPermutation(s, n)
    ensures forall v :: 0 <= v < n ==> v in s
  {
    var all := Identity(n);
    DistinctElementsCount(s);
    DistinctElementsCount(all);
    forall x | x in Elements(s)
      ensures x in Elements(all)
    {
      assert all[x] == x;
    }
    SubsetOfSameSize(Elements(s), Elements(all));
    forall v | 0 <= v < n
      ensures v in s
    {
      assert all[v] in Elements(all);
    }
  }

  /** The position of `v` in `s`. */
  function IndexOf(s: seq<nat>, v: nat): (i: nat)
    requires v in s
    ensures i < |s| && s[i] == v
    ensures forall k :: 0 <= k < i ==> s[k] != v
  {
    if s[0] == v then 0 else 1 + IndexOf(s[1..], v)
  }
}

=== FILE: setup.dfy ===
/**
 The state transitions of the setup screen (components/setup-view.tsx). The
 React state the handlers read and write is one immutable `SetupState`; each
 handler is a function from the state before to the state after. Fresh ids,
 which the source takes from `Date.now()`, are parameters.
 */
module Setup {
  import opened Types
  import opened Permutations
  import opened Matching

  datatype SetupState = SetupState(
    houses: seq<House>,
    people: seq<Person>,
    assignments: seq<Assignment>,
    isDrawComplete: bool,
    error: string,
    newHouseName: string,
    newPersonName: string,
    selectedHouseId: string)

  const TooFewPeopleError: string := "Se necesitan al menos 2 personas para hacer el sorteo"
  const SameHouseError: string := "No se puede hacer el sorteo: todas las personas viven en la misma casa"
  const NoCombinationError: string :=
    "No se pudo encontrar una combinaci\U{00F3}n v\U{00E1}lida. Intenta reorganizar las casas."

  // ---------------------------------------------------------------- trimming

  /** The characters `String.prototype.trim` removes: ECMAScript white space
      (including every space separator) and line terminators. */
  predicate IsSpace(c: char) {
    || c == '\t' || c == '\n' || c == '\U{000B}' || c == '\U{000C}' || c == '\r' || c == ' '
    || c == '\U{00A0}' || c == '\U{1680}' || ('\U{2000}' <= c <= '\U{200A}')
    || c == '\U{2028}' || c == '\U{2029}' || c == '\U{202F}' || c == '\U{205F}'
    || c == '\U{3000}' || c == '\U{FEFF}'
  }

  /** `t` consists of white space only. */
  predicate Blank(t: string) {
    forall k :: 0 <= k < |t| ==> IsSpace(t[k])
  }

  function TrimStart(s: string): (r: string)
    ensures |r| <= |s| && r == s[|s| - |r|..]
    ensures forall k :: 0 <= k < |s| - |r| ==> IsSpace(s[k])
    ensures r == [] || !IsSpace(r[0])
  {
    if |s| > 0 && IsSpace(s[0]) then TrimStart(s[1..]) else s
  }

  function TrimEnd(s: string): (r: string)
    ensures |r| <= |s| && r == s[..|r|]
    ensures forall k :: |r| <= k < |s| ==> IsSpace(s[k])
    ensures r == [] || !IsSpace(r[|r| - 1])
  {
    if |s| > 0 && IsSpace(s[|s| - 1]) then TrimEnd(s[..|s| - 1]) else s
  }

  /** The infix of `s` left after removing white space at both ends, as the
      handlers trim their inputs (components/setup-view.tsx:39, 60). */
  function Trim(s: string): (r: string)
    ensures exists i, j :: && 0 <= i <= j <= |s|
                           && r == s[i..j]
                           && (forall k :: 0 <= k < i ==> IsSpace(s[k]))
                           && (forall k :: j <= k < |s| ==> IsSpace(s[k]))
    ensures r == [] || (!IsSpace(r[0]) && !IsSpace(r[|r| - 1]))
    ensures r == [] <==> Blank(s)
  {
    var front := TrimStart(s);
    var r := TrimEnd(front);
    var i := |s| - |front|;
    assert r == s[i..i + |r|];
    assert r == [] || !IsSpace(r[0]) by {
      if r != [] {
        assert r[0] == front[0];
      }
    }
    r
  }

  // --------------------------------------------------------------- filtering

  /** `r` is `s` with some elements left out, the rest in their order. */
  ghost predicate IsSubsequence<T>(r: seq<T>, s: seq<T>)
    decreases |s|
  {
    || |r| == 0
    || (&& |s| > 0
        && ((r[0] == s[0] && IsSubsequence(r[1..], s[1..])) || IsSubsequence(r, s[1..])))
  }

  /** The elements of `s` that `keep` accepts, in their order. */
  function Filter<T(==,!new)>(s: seq<T>, keep: T -> bool): (r: seq<T>)
    ensures IsSubsequence(r, s)
    ensures forall x :: multiset(r)[x] == if keep(x) then multiset(s)[x] else 0
    ensures forall x :: x in r <==> x in s && keep(x)
  {
    if |s| == 0 then []
    else
      var rest := Filter(s[1..], keep);
      assert s == [s[0]] + s[1..];
      assert multiset(s) == multiset{s[0]} + multiset(s[1..]);
      if keep(s[0]) then
        var r := [s[0]] + rest;
        assert r[1..] == rest;
        r
      else
        rest
  }

  // ------------------------------------------------------------- invariants

  /** Every person belongs to a listed house, and the house picker is either
      empty or names a listed house. */
  ghost predicate Housed(st: SetupState) {
    && (forall p :: p in st.people ==> exists h :: h in st.houses && h.id == p.houseId)
    && (st.selectedHouseId == "" || exists h :: h in st.houses && h.id == st.selectedHouseId)
  }

  /** A completed draw on the setup screen is a valid draw of its people. */
  ghost predicate DrawOk(st: SetupState) {
    st.isDrawComplete ==> st.assignments != [] && ValidDraw(st.people, st.assignments)
  }

  // ------------------------------------------------------------ transitions

  /** `addHouse`: append a house named by the trimmed input, unless it is blank. */
  function AddHouse(st: SetupState, newId: string): (r: SetupState)
    ensures Trim(st.newHouseName) == [] ==> r == st
    ensures Trim(st.newHouseName) != [] ==>
              && r.houses == st.houses + [House(newId, Trim(st.newHouseName))]
              && r.newHouseName == ""
              && r.selectedHouseId == (if st.selectedHouseId == "" then newId else st.selectedHouseId)
              && r.people == st.people && r.assignments == st.assignments
              && r.isDrawComplete == st.isDrawComplete && r.error == st.error
              && r.newPersonName == st.newPersonName
    ensures Housed(st) ==> Housed(r)
  {
    var name := Trim(st.newHouseName);
    if name == [] then st
    else
      var house := House(newId, name);
      var r := st.(houses := st.houses + [house], newHouseName := "",
                   selectedHouseId := if st.selectedHouseId == "" then newId else st.selectedHouseId);
      assert house in r.houses;
      r
  }

  /** The id `houses[0]?.id || ""` names: the first house, or none. */
  function FirstHouseId(houses: seq<House>): (id: string)
    ensures id != "" ==> |houses| > 0 && id == houses[0].id
    ensures id == "" <==> |houses| == 0 || houses[0].id == ""
  {
    if |houses| > 0 then houses[0].id else ""
  }

  /** `removeHouse` as written: when the selected house is removed, the
      selection falls back to the first house of the list from BEFORE the
      removal, which is the removed house itself when it came first. */
  function RemoveHouseAsWritten(st: SetupState, houseId: string): (r: SetupState)
    ensures IsSubsequence(r.houses, st.houses) && IsSubsequence(r.people, st.people)
    ensures forall h :: multiset(r.houses)[h] == if h.id != houseId then multiset(st.houses)[h] else 0
    ensures forall p :: multiset(r.people)[p] == if p.houseId != houseId then multiset(st.people)[p] else 0
    ensures r.selectedHouseId == if st.selectedHouseId == houseId then FirstHouseId(st.houses) else st.selectedHouseId
    ensures r.selectedHouseId == houseId ==> st.selectedHouseId == houseId && FirstHouseId(st.houses) == houseId
    ensures r == RemoveHouse(st, houseId).(selectedHouseId := r.selectedHouseId)
  {
    st.(houses := Filter(st.houses, (h: House) => h.id != houseId),
        people := Filter(st.people, (p: Person) => p.houseId != houseId),
        selectedHouseId := if st.selectedHouseId == houseId then FirstHouseId(st.houses) else st.selectedHouseId)
  }

  /** Removing the first house while it is selected leaves the removed house
      selected, and the next person added then lives in a house that no longer
      exists. */
  lemma StaleSelectionCounterexample()
    ensures var st := SetupState([House("1", "Casa")], [], [], false, "", "", "Ana", "1");
            && Housed(st)
            && !Housed(RemoveHouseAsWritten(st, "1"))
            && !Housed(AddPerson(RemoveHouseAsWritten(st, "1"), "2"))
  {
    var st := SetupState([House("1", "Casa")], [], [], false, "", "", "Ana", "1");
    assert House("1", "Casa") in st.houses;
    var removed := RemoveHouseAsWritten(st, "1");
    assert removed.houses == [];
    assert removed.selectedHouseId == "1";
    assert Trim("Ana") == "Ana" by {
      assert !IsSpace('A');
    }
    var added := AddPerson(removed, "2");
    assert Person("2", "Ana", "1", false) in added.people;
  }

  /** `removeHouse`: drop the house and, in cascade, exactly its people; every
      other house and person stays, in order. A selection of the removed house
      moves to the first remaining house (or to none). */
  function RemoveHouse(st: SetupState, houseId: string): (r: SetupState)
    ensures IsSubsequence(r.houses, st.houses) && IsSubsequence(r.people, st.people)
    ensures forall h :: multiset(r.houses)[h] == if h.id != houseId then multiset(st.houses)[h] else 0
    ensures forall p :: multiset(r.people)[p] == if p.houseId != houseId then multiset(st.people)[p] else 0
    ensures r.selectedHouseId != houseId || houseId == ""
    ensures st.selectedHouseId != houseId ==> r.selectedHouseId == st.selectedHouseId
    ensures && r.assignments == st.assignments && r.isDrawComplete == st.isDrawComplete && r.error == st.error
            && r.newHouseName == st.newHouseName && r.newPersonName == st.newPersonName
    ensures Housed(st) ==> Housed(r)
  {
    var houses := Filter(st.houses, (h: House) => h.id != houseId);
    var people := Filter(st.people, (p: Person) => p.houseId != houseId);
    var selected := if st.selectedHouseId == houseId then FirstHouseId(houses) else st.selectedHouseId;
    assert houses != [] ==> houses[0] in houses;
    st.(houses := houses, people := people, selectedHouseId := selected)
  }

  /** `addPerson`: append a person named by the trimmed input to the selected
      house, unless the name is blank or no house is selected. */
  function AddPerson(st: SetupState, newId: string): (r: SetupState)
    ensures Trim(st.newPersonName) == [] || st.selectedHouseId == "" ==> r == st
    ensures Trim(st.newPersonName) != [] && st.selectedHouseId != "" ==>
              && r.people == st.people + [Person(newId, Trim(st.newPersonName), st.selectedHouseId, false)]
              && r.newPersonName == ""
              && r.houses == st.houses && r.assignments == st.assignments
              && r.isDrawComplete == st.isDrawComplete && r.error == st.error
              && r.newHouseName == st.newHouseName && r.selectedHouseId == st.selectedHouseId
    ensures Housed(st) ==> Housed(r)
  {
    var name := Trim(st.newPersonName);
    if name == [] || st.selectedHouseId == "" then st
    else st.(people := st.people + [Person(newId, name, st.selectedHouseId, false)], newPersonName := "")
  }

  /** `removePerson`: drop exactly the people with id `personId`, the rest in order. */
  function RemovePerson(st: SetupState, personId: string): (r: SetupState)
    ensures IsSubsequence(r.people, st.people)
    ensures forall p :: multiset(r.people)[p] == if p.id != personId then multiset(st.people)[p] else 0
    ensures r == st.(people := r.people)
    ensures Housed(st) ==> Housed(r)
  {
    st.(people := Filter(st.people, (p: Person) => p.id != personId))
  }

  /** How many different houses the people live in (components/setup-view.tsx:83-89). */
  function HouseCount(people: seq<Person>): (r: nat)
    ensures |people| > 0 ==> (r == 1 <==> AllInOneHouse(people))
  {
    var houses := set p | p in people :: p.houseId;
    if |people| > 0 then
      var h := people[0].houseId;
      assert h in houses;
      if AllInOneHouse(people) then
        assert houses == {h};
        |houses|
      else
        var k :| 0 <= k < |people| && people[k].houseId != h;
        assert people[k].houseId in houses - {h};
        assert |houses - {h}| >= 1;
        |houses|
    else
      |houses|
  }

  /** `performDraw`: refuse fewer than two people or a single house, else run
      the matcher and keep its draw if it found one. */
  function PerformDraw(st: SetupState, shuffle: Shuffler): (r: SetupState)
    ensures && r.houses == st.houses && r.people == st.people
            && r.newHouseName == st.newHouseName && r.newPersonName == st.newPersonName
            && r.selectedHouseId == st.selectedHouseId
    ensures |st.people| < 2 ==> r == st.(error := TooFewPeopleError)
    ensures |st.people| >= 2 && AllInOneHouse(st.people) ==> r == st.(error := SameHouseError)
    ensures r.error != "" ==> r.assignments == st.assignments && r.isDrawComplete == st.isDrawComplete
    ensures r.error == "" ==> r.isDrawComplete && r.assignments != [] && ValidDraw(st.people, r.assignments)
    ensures r.error == "" ==> DistinctIds(st.people)
    ensures r.error in {"", TooFewPeopleError, SameHouseError, NoCombinationError}
    ensures |st.people| >= 2 && !AllInOneHouse(st.people) && r.error != "" ==> r == st.(error := NoCombinationError)
    ensures DistinctIds(st.people) && |st.people| >= 2 ==> (r.error == "" <==> Feasible(st.people))
    ensures DrawOk(st) ==> DrawOk(r)
  {
    var cleared := st.(error := "");
    if |st.people| < 2 then
      cleared.(error := TooFewPeopleError)
    else if HouseCount(st.people) == 1 then
      FeasibleSpansHouses(st.people);
      cleared.(error := SameHouseError)
    else
      var assignments := CreateValidAssignments(st.people, shuffle);
      if |assignments| == 0 then
        cleared.(error := NoCombinationError)
      else
        cleared.(assignments := assignments, isDrawComplete := true)
  }

  /** `resetDraw`: forget the draw and the error; houses, people and inputs stay. */
  function ResetDraw(st: SetupState): (r: SetupState)
    ensures !r.isDrawComplete && r.assignments == [] && r.error == ""
    ensures DrawOk(r)
    ensures && r.houses == st.houses && r.people == st.people
            && r.newHouseName == st.newHouseName && r.newPersonName == st.newPersonName
            && r.selectedHouseId == st.selectedHouseId
  {
    st.(assignments := [], isDrawComplete := false, error := "")
  }
}

=== FILE: store.dfy ===
/**
 The in-memory session store of lib/store.ts: the global `Map` of sessions
 becomes a `map<string, Session>` that every operation takes and returns.
 Sessions are created with a precomputed draw; people claim their identity
 once each, and the last claim runs the draw again if none was found before.
 */
module Store {
  import opened Types
  import opened Permutations
  import opened Matching

  datatype Session = Session(
    id: string,
    houses: seq<House>,
    people: seq<Person>,
    assignments: seq<Assignment>,
    isDrawComplete: bool,
    createdAt: int)

  type Sessions = map<string, Session>

  /** A session is complete exactly when it holds pairs, and then they form a
      valid draw among people with distinct ids (the matcher finds no draw
      when ids collide). */
  ghost predicate SessionOk(s: Session) {
    && (s.isDrawComplete <==> s.assignments != [])
    && (s.isDrawComplete ==> ValidDraw(s.people, s.assignments) && DistinctIds(s.people))
  }

  /** Every session is stored under its own id and is well formed. */
  ghost predicate StoreOk(sessions: Sessions) {
    forall id :: id in sessions ==> sessions[id].id == id && SessionOk(sessions[id])
  }

  /** `getSession`: the session stored under `id`, if any. */
  function GetSession(sessions: Sessions, id: string): (r: Option<Session>)
    ensures r.Some? <==> id in sessions
    ensures r.Some? ==> r.value == sessions[id]
  {
    if id in sessions then Some(sessions[id]) else None
  }

  /** `setSession`: store `s` under its id, replacing any session there. */
  function SetSession(sessions: Sessions, s: Session): (r: Sessions)
    ensures s.id in r && r[s.id] == s
    ensures forall id :: id != s.id ==> (id in r <==> id in sessions)
    ensures forall id :: id != s.id && id in sessions ==> r[id] == sessions[id]
  {
    sessions[s.id := s]
  }

  lemma SetSessionKeepsStoreOk(sessions: Sessions, s: Session)
    requires StoreOk(sessions) && SessionOk(s)
    ensures StoreOk(SetSession(sessions, s))
  {
  }

  datatype Created = Created(sessions: Sessions, session: Session)

  /** `createSession`: everyone unclaimed, a draw precomputed, the session stored.
      The fresh id and the creation time are parameters. */
  function CreateSession(sessions: Sessions, id: string, createdAt: int, houses: seq<House>, people: seq<Person>,
                         shuffle: Shuffler): (r: Created)
    ensures r.session.id == id && r.session.houses == houses && r.session.createdAt == createdAt
    ensures |r.session.people| == |people|
    ensures forall k :: 0 <= k < |people| ==> r.session.people[k] == people[k].(claimed := false)
    ensures r.session.isDrawComplete <==> r.session.assignments != []
    ensures r.session.isDrawComplete ==> ValidDraw(r.session.people, r.session.assignments)
    ensures r.session.isDrawComplete ==> DistinctIds(people)
    ensures AllInOneHouse(people) ==> !r.session.isDrawComplete
    ensures DistinctIds(people) ==> (r.session.isDrawComplete <==> |people| > 0 && Feasible(r.session.people))
    ensures r.sessions == SetSession(sessions, r.session)
  {
    var unclaimed := seq(|people|, k requires 0 <= k < |people| => people[k].(claimed := false));
    assert AllInOneHouse(people) ==> AllInOneHouse(unclaimed);
    assert DistinctIds(people) ==> DistinctIds(unclaimed);
    var precomputed := CreateValidAssignments(unclaimed, shuffle);
    var session := Session(id, houses, unclaimed, precomputed, |precomputed| > 0, createdAt);
    Created(SetSession(sessions, session), session)
  }

  lemma CreateSessionKeepsStoreOk(sessions: Sessions, id: string, createdAt: int, houses: seq<House>,
                                  people: seq<Person>, shuffle: Shuffler)
    requires StoreOk(sessions)
    ensures StoreOk(CreateSession(sessions, id, createdAt, houses, people, shuffle).sessions)
  {
    var r := CreateSession(sessions, id, createdAt, houses, people, shuffle);
    SetSessionKeepsStoreOk(sessions, r.session);
  }

  /** `i` is the first position holding id `personId`, the person `find` returns. */
  predicate FirstMatch(people: seq<Person>, personId: string, i: nat) {
    && i < |people|
    && people[i].id == personId
    && forall k :: 0 <= k < i ==> people[k].id != personId
  }

  /** The position of the first person with id `personId`, if any (lib/store.ts:69). */
  function FindPerson(people: seq<Person>, personId: string): (r: Option<nat>)
    ensures r.Some? ==> FirstMatch(people, personId, r.value)
    ensures r.None? ==> forall k :: 0 <= k < |people| ==> people[k].id != personId
  {
    if |people| == 0 then None
    else if people[0].id == personId then Some(0)
    else
      match FindPerson(people[1..], personId)
      case None => None
      case Some(i) => Some(i + 1)
  }

  /** Some person holds `personId` and the first such person has not claimed yet. */
  predicate Claimable(people: seq<Person>, personId: string) {
    match FindPerson(people, personId)
    case None => false
    case Some(i) => !people[i].claimed
  }

  predicate AllClaimed(people: seq<Person>) {
    forall k :: 0 <= k < |people| ==> people[k].claimed
  }

  datatype ClaimError = NotFound | PersonNotFound | AlreadyClaimed

  /** The `reason` string the source reports for each error. */
  function Reason(e: ClaimError): (r: string)
    ensures e == NotFound <==> r == "NOT_FOUND"
    ensures e == PersonNotFound <==> r == "PERSON_NOT_FOUND"
    ensures e == AlreadyClaimed <==> r == "ALREADY_CLAIMED"
  {
    match e
    case NotFound => "NOT_FOUND"
    case PersonNotFound => "PERSON_NOT_FOUND"
    case AlreadyClaimed => "ALREADY_CLAIMED"
  }

  /** The outcome of a claim: accepted, or refused for a reason. */
  datatype ClaimResult = Claimed | Refused(reason: ClaimError)

  datatype ClaimOutcome = ClaimOutcome(sessions: Sessions, result: ClaimResult)

  /** `after` is `before` with the flag of person `i` set and nothing else changed. */
  ghost predicate ClaimsOnly(before: seq<Person>, after: seq<Person>, i: nat) {
    && |after| == |before|
    && i < |before|
    && after[i] == before[i].(claimed := true)
    && forall k :: 0 <= k < |before| && k != i ==> after[k] == before[k]
  }

  /** The session after a successful claim of person `i`: that person's flag is
      set, and if no draw was complete and everybody has now claimed, the draw
      is run again on the updated people; otherwise the draw is untouched. */
  ghost predicate ClaimStep(s: Session, s': Session, i: nat, shuffle: Shuffler) {
    && s'.id == s.id && s'.houses == s.houses && s'.createdAt == s.createdAt
    && ClaimsOnly(s.people, s'.people, i)
    && if !s.isDrawComplete && AllClaimed(s'.people) then
         && s'.assignments == CreateValidAssignments(s'.people, shuffle)
         && (s'.isDrawComplete <==> s'.assignments != [])
       else
         s'.assignments == s.assignments && s'.isDrawComplete == s.isDrawComplete
  }

  /** `claimPerson`: check in person `personId` of session `sessionId`. The
      shuffles of a draw this claim may trigger are a parameter. */
  function ClaimPerson(sessions: Sessions, sessionId: string, personId: string, shuffle: Shuffler): (r: ClaimOutcome)
    ensures r.result == Refused(NotFound) <==> sessionId !in sessions
    ensures r.result == Refused(PersonNotFound) <==>
              sessionId in sessions && forall k :: 0 <= k < |sessions[sessionId].people| ==> sessions[sessionId].people[k].id != personId
    ensures r.result == Refused(AlreadyClaimed) <==>
              sessionId in sessions && exists i: nat :: FirstMatch(sessions[sessionId].people, personId, i) && sessions[sessionId].people[i].claimed
    ensures r.result == Claimed <==> sessionId in sessions && Claimable(sessions[sessionId].people, personId)
    ensures r.result.Refused? ==> r.sessions == sessions
    ensures r.result == Claimed ==>
              && sessionId in sessions && sessionId in r.sessions
              && r.sessions == sessions[sessionId := r.sessions[sessionId]]
              && exists i: nat :: && FirstMatch(sessions[sessionId].people, personId, i)
                                  && !sessions[sessionId].people[i].claimed
                                  && ClaimStep(sessions[sessionId], r.sessions[sessionId], i, shuffle)
  {
    match GetSession(sessions, sessionId)
    case None => ClaimOutcome(sessions, Refused(NotFound))
    case Some(s) =>
      match FindPerson(s.people, personId)
      case None => ClaimOutcome(sessions, Refused(PersonNotFound))
      case Some(i) =>
        if s.people[i].claimed then
          ClaimOutcome(sessions, Refused(AlreadyClaimed))
        else
          var people := s.people[i := s.people[i].(claimed := true)];
          var claimed := s.(people := people);
          var redrawn :=
            if !claimed.isDrawComplete && AllClaimed(people) then
              var assignments := CreateValidAssignments(people, shuffle);
              claimed.(assignments := assignments, isDrawComplete := |assignments| > 0)
            else
              claimed;
          assert ClaimStep(s, redrawn, i, shuffle);
          ClaimOutcome(sessions[sessionId := redrawn], Claimed)
  }

  /** Once a claim succeeds, claiming the same person again is refused as already claimed. */
  lemma ClaimTwiceConflicts(sessions: Sessions, sessionId: string, personId: string, shuffle: Shuffler, shuffle': Shuffler)
    requires sessionId in sessions && Claimable(sessions[sessionId].people, personId)
    ensures ClaimPerson(ClaimPerson(sessions, sessionId, personId, shuffle).sessions, sessionId, personId, shuffle').result
            == Refused(AlreadyClaimed)
  {
    var after := ClaimPerson(sessions, sessionId, personId, shuffle).sessions;
    var i: nat :| && FirstMatch(sessions[sessionId].people, personId, i)
                  && ClaimStep(sessions[sessionId], after[sessionId], i, shuffle);
    assert FirstMatch(after[sessionId].people, personId, i);
  }

  /** Claims keep every session well formed: a claim only sets a flag, and a
      draw it runs is a valid draw for the claimed people. */
  lemma ClaimKeepsStoreOk(sessions: Sessions, sessionId: string, personId: string, shuffle: Shuffler)
    requires StoreOk(sessions)
    ensures StoreOk(ClaimPerson(sessions, sessionId, personId, shuffle).sessions)
  {
    var r := ClaimPerson(sessions, sessionId, personId, shuffle);
    if r.result == Claimed {
      var s := sessions[sessionId];
      var s' := r.sessions[sessionId];
      var i: nat :| FirstMatch(s.people, personId, i) && ClaimStep(s, s', i, shuffle);
      assert SameRoster(s.people, s'.people);
      assert forall k :: 0 <= k < |s.people| ==> s'.people[k].id == s.people[k].id;
      if s'.isDrawComplete && s.isDrawComplete && !(!s.isDrawComplete && AllClaimed(s'.people)) {
        ValidDrawSameRoster(s.people, s'.people, s.assignments);
      }
    }
  }

  /** The draw of a session that had none completes on the claim that makes
      everybody claimed, and then exactly when a valid draw exists (ids
      distinct); any earlier claim leaves it incomplete. */
  lemma LastClaimDecidesDraw(sessions: Sessions, sessionId: string, personId: string, shuffle: Shuffler)
    requires sessionId in sessions && !sessions[sessionId].isDrawComplete
    requires DistinctIds(sessions[sessionId].people)
    requires Claimable(sessions[sessionId].people, personId)
    ensures var s' := ClaimPerson(sessions, sessionId, personId, shuffle).sessions[sessionId];
            s'.isDrawComplete <==> AllClaimed(s'.people) && Feasible(s'.people)
  {
    var s := sessions[sessionId];
    var s' := ClaimPerson(sessions, sessionId, personId, shuffle).sessions[sessionId];
    var i: nat :| FirstMatch(s.people, personId, i) && ClaimStep(s, s', i, shuffle);
    assert DistinctIds(s'.people) by {
      assert forall k :: 0 <= k < |s.people| ==> s'.people[k].id == s.people[k].id;
    }
  }

  /** The receiver of the first pair given by `giverId`, if any (lib/store.ts:88). */
  function FindReceiver(assignments: seq<Assignment>, giverId: string): (r: Option<string>)
    ensures r.Some? ==> exists k :: && 0 <= k < |assignments|
                                    && assignments[k] == Assignment(giverId, r.value)
                                    && forall e :: 0 <= e < k ==> assignments[e].giverId != giverId
    ensures r.None? ==> forall k :: 0 <= k < |assignments| ==> assignments[k].giverId != giverId
  {
    if |assignments| == 0 then None
    else if assignments[0].giverId == giverId then Some(assignments[0].receiverId)
    else
      var r := FindReceiver(assignments[1..], giverId);
      assert r.Some? ==> exists k :: && 0 <= k < |assignments[1..]|
                                     && assignments[1..][k] == Assignment(giverId, r.value)
                                     && forall e :: 0 <= e < k ==> assignments[1..][e].giverId != giverId;
      assert r.Some? ==> exists k :: && 0 <= k < |assignments|
                                     && assignments[k] == Assignment(giverId, r.value)
                                     && forall e :: 0 <= e < k ==> assignments[e].giverId != giverId;
      r
  }

  /** `getReceiverFor`: nothing while the session is missing or its draw
      incomplete, otherwise the receiver drawn for `giverId`. */
  function GetReceiverFor(sessions: Sessions, sessionId: string, giverId: string): (r: Option<string>)
    ensures sessionId !in sessions || !sessions[sessionId].isDrawComplete ==> r.None?
    ensures r.Some? ==> exists k :: && 0 <= k < |sessions[sessionId].assignments|
                                    && sessions[sessionId].assignments[k] == Assignment(giverId, r.value)
                                    && forall e :: 0 <= e < k ==> sessions[sessionId].assignments[e].giverId != giverId
    ensures && sessionId in sessions && sessions[sessionId].isDrawComplete
            && (exists k :: 0 <= k < |sessions[sessionId].assignments|
                            && sessions[sessionId].assignments[k].giverId == giverId)
            ==> r.Some?
  {
    match GetSession(sessions, sessionId)
    case None => None
    case Some(s) => if !s.isDrawComplete then None else FindReceiver(s.assignments, giverId)
  }

  /** In a complete session of a well-formed store, every participant has a
      receiver: another participant, from another house. */
  lemma ReceiverIsValid(sessions: Sessions, sessionId: string, i: nat)
    requires StoreOk(sessions) && sessionId in sessions
    requires sessions[sessionId].isDrawComplete
    requires i < |sessions[sessionId].people|
    ensures var people := sessions[sessionId].people;
            var r := GetReceiverFor(sessions, sessionId, people[i].id);
            && r.Some?
            && exists j :: 0 <= j < |people| && people[j].id == r.value && j != i
                           && people[j].houseId != people[i].houseId
  {
    var s := sessions[sessionId];
    DrawIsBijection(s.people, s.assignments);
    assert Gives(s.people, s.assignments, i);
    var r := GetReceiverFor(sessions, sessionId, s.people[i].id);
    var k :| 0 <= k < |s.assignments| && s.assignments[k] == Assignment(s.people[i].id, r.value);
    assert Crosses(s.people, s.assignments[k]);
    var x, y :| && 0 <= x < |s.people| && 0 <= y < |s.people|
                && s.people[x].id == s.assignments[k].giverId && s.people[y].id == s.assignments[k].receiverId
                && x != y && s.people[x].houseId != s.people[y].houseId;
    assert x == i;
  }
}

=== FILE: types.dfy ===
/**
 The records shared by the session store and the setup screen: households,
 participants and giver-to-receiver pairs, all identified by string ids.
 */
module Types {

  datatype Option<T> = None | Some(value: T)

  /** A household; people of the same house never draw each other. */
  datatype House = House(id: string, name: string)

  /** A participant. `claimed` records whether the person has checked in to a
      shared session; the matcher ignores it. */
  datatype Person = Person(id: string, name: string, houseId: string, claimed: bool)

  /** One drawn pair: the person `giverId` gives a present to `receiverId`. */
  datatype Assignment = Assignment(giverId: string, receiverId: string)

  /** No two people share an id. Ids come from `Date.now()` and may collide,
      so this is an assumption of some results, never of the operations. */
  predicate DistinctIds(people: seq<Person>) {
    forall a, b :: 0 <= a < b < |people| ==> people[a].id != people[b].id
  }

  /** Everyone lives in the same house. */
  predicate AllInOneHouse(people: seq<Person>) {
    forall a, b :: 0 <= a < |people| && 0 <= b < |people| ==> people[a].houseId == people[b].houseId
  }

  /** `p` and `q` list the same people, ids, names and houses in the same order;
      they may differ only in the `claimed` flags. */
  predicate SameRoster(p: seq<Person>, q: seq<Person>) {
    && |p| == |q|
    && forall k :: 0 <= k < |p| ==> p[k].(claimed := false) == q[k].(claimed := false)
  }
}
